=== FILE: README.md ===
# RSS event source: the poll loop as a verified state machine

This project models the decision logic of the Event-Driven Ansible RSS
source plugin (`extensions/eda/plugins/event_source/rss.py`). The plugin
polls several feeds. Each poller fetches its feed and parses it. When
`most_recent_item` is set, the first poll with entries emits `entries[0]`
if it passes the search; otherwise the first poll emits nothing. After that
the poller emits the entries that are strictly newer than a watermark (the
feed's own date from the previous successful poll) and that pass a
substring search. Each emitted entry gets
a `feed_name` key, and a `content_tags` key when a dotted path into the
entry finds a value.

The model is pure and functional:

- `Values` is a JSON-like `Value` (None, str, int, list, dict). `GetNested`
  is `get_nested_value`, and `GetNestedValue` is the same projection written
  as the source's loop.
- `Strings` holds Python's `needle in hay` (`Contains`) and `str.split`
  (`Split`), with `Join` as its inverse.
- `Timestamps` holds `time.struct_time` as a sequence of integers, with
  Python's tuple order (`Less`).
- `Poller` holds the configuration defaulting (`Setup`, `Launch`), event
  decoration (`Decorate`), the steady-state loop over entries
  (`ScanEntries`) and one iteration of the `while True` loop (`Step`).
  A cycle takes a `Fetch`, which is `Failed` (no text) or `Parsed(feed date,
  entries)`. It returns the emitted events and the next
  `PollerState(lastUpdated, firstPoll)`.
- `CycleProperties` states what one cycle promises, branch by branch.
- `Runs` folds `Step` over a sequence of fetches. It proves that failed
  fetches are invisible, that an aborted cycle re-emits its events when
  retried, and that on a well-behaved feed a later cycle only emits entries
  strictly newer than anything emitted before, so nothing is emitted twice.
- `Scenarios` holds concrete cycles: a watermark at work, the
  case-sensitive search, and a `tags.label` path.

Behaviour of the code worth knowing:

- In the steady branch, an entry with no `updated_parsed` (or one that is
  None) is not skipped: comparing it raises inside the `try`. The rest of the
  cycle is lost, the events already queued stay queued, and line 132 does
  not run, so the watermark and `first_poll` stay as they were
  (`Poller.Raises`, `CycleProperties.SteadyEmitsNewerMatching`). The same
  happens for a missing `summary` under a search string, on the cold-start
  entry or on an entry newer than the watermark. The summary of an entry at
  or below the watermark is never read, so its absence raises nothing.
- `first_poll` is cleared only when the cold-start branch fires, and that
  branch needs a non-empty entry list. A first poll with no entries does not
  use up the cold start (`CycleProperties.EmptyFeedKeepsColdStart`). The
  next poll with entries still takes the cold-start branch and emits at
  most `entries[0]`, even when a watermark has been set meanwhile.
- The code does not check that `url` is present. A missing URL makes every
  fetch fail, which the model shows as an endless run of `Failed` cycles.
- `most_recent_item` picks `entries[0]`. It trusts the parser's order and
  does not compare dates.
- After a cycle that parses to the end, the watermark is the feed's own
  date. It is None when the feed has none, and then the next steady cycle
  emits nothing. A cycle that parses to the end never keeps the old
  watermark. A failed fetch or an aborted cycle leaves it unchanged.

## Model

| member | source | states |
|---|---|---|
| `Values.GetNestedValue` | extensions/eda/plugins/event_source/rss.py:79-84 | the source's loop, with its early return on a None or non-dict value, computes the recursive projection `GetNested` |
| `Values.PresentPathGivesLeaf` | extensions/eda/plugins/event_source/rss.py:80-84 | when every key is present in nested dicts, the projection is the leaf value, whatever its type |
| `Values.FoundValueHasPath` | extensions/eda/plugins/event_source/rss.py:80-84 | conversely, a projection that is not None was reached through keys that are all present |
| `Values.MissingKeyGivesNull` | extensions/eda/plugins/event_source/rss.py:83 | a key missing from the dict reached so far makes the result None, because `.get` is used |
| `Values.NonDictGivesNull` | extensions/eda/plugins/event_source/rss.py:81-82 | reaching None or a non-dict while keys remain gives None |
| `Values.GetNestedAppend` | extensions/eda/plugins/event_source/rss.py:79-84 | projecting along `a + b` equals projecting along `a` and then along `b` |
| `Strings.ContainsIffOccurs` | extensions/eda/plugins/event_source/rss.py:116 | `search in summary` holds exactly when the search string occurs at some index of the summary |
| `Strings.JoinSplit` | extensions/eda/plugins/event_source/rss.py:102 | joining the pieces of `path.split('.')` with dots gives back the path |
| `Strings.SplitPiecesFree` | extensions/eda/plugins/event_source/rss.py:102 | no piece of the split contains a dot |
| `Strings.SplitJoin` | extensions/eda/plugins/event_source/rss.py:102 | splitting a dot-join of dot-free keys gives back exactly those keys |
| `Timestamps.LessIffFirstDifference` | extensions/eda/plugins/event_source/rss.py:125 | tuple `<` holds exactly when the dates agree up to a field where the first is smaller, or the first is a proper prefix |
| `Timestamps.LessIrreflexive` | extensions/eda/plugins/event_source/rss.py:125 | no date is newer than itself, so an entry dated at the watermark is not emitted |
| `Timestamps.LessTransitive` | extensions/eda/plugins/event_source/rss.py:125 | the newer-than order is transitive |
| `Timestamps.LessTrichotomy` | extensions/eda/plugins/event_source/rss.py:125 | any two dates are equal or one is newer |
| `Poller.TagKeys` | extensions/eda/plugins/event_source/rss.py:101-102 | no keys when the path is absent or empty; otherwise dot-free keys whose dot-join is the path |
| `Poller.EffectiveInterval` | extensions/eda/plugins/event_source/rss.py:103 | the per-feed interval when it is set and non-zero, otherwise the default, so it is 0 only when the default is |
| `Poller.Setup` | extensions/eda/plugins/event_source/rss.py:99-104 | the poller keeps the url and search, takes the name or `''`, splits the tags path into dot-free keys whose dot-join is the path, and uses the per-feed interval when it is set and non-zero, the default otherwise |
| `Poller.Launch` | extensions/eda/plugins/event_source/rss.py:139-146 | one poller per configured feed, none when `feed_configs` is absent, all with the default interval 7200 unless the arguments give one, and most-recent-item mode only when it is set to true |
| `Poller.AsValue` | extensions/eda/plugins/event_source/rss.py:117-126 | the dict the projection reads is the entry's dictionary, with `summary` and `updated_parsed` present exactly when the entry has those attributes, and every other key as the entry has it |
| `Poller.ContentTags` | extensions/eda/plugins/event_source/rss.py:117-118 | a value to attach exactly when the path is non-empty and the projection of the entry is not None, and it is that projection |
| `Poller.Decorate` | extensions/eda/plugins/event_source/rss.py:117-120 | the event is the entry with `feed_name` set, `content_tags` set to the projection when one is found and otherwise left as the entry had it, and every other key unchanged |
| `Poller.SearchHit` | extensions/eda/plugins/event_source/rss.py:116 | with no search string every entry passes without reading its summary; otherwise a missing summary raises and a present one passes exactly when it contains the search string |
| `Poller.Raises` | extensions/eda/plugins/event_source/rss.py:116-125 | the steady test raises exactly when the entry has no date, or is newer than the watermark and lacks the summary a set search string reads; with no search string only a missing date raises |
| `Poller.SelectedMembership` | extensions/eda/plugins/event_source/rss.py:124-130 | an event is in the steady selection exactly when it decorates an entry that is strictly newer than the watermark and passes the search |
| `Poller.SelectedAreNewer` | extensions/eda/plugins/event_source/rss.py:125-129 | every selected event is dated strictly after the watermark and carries the feed's name |
| `Poller.ScanEntries` | extensions/eda/plugins/event_source/rss.py:124-130 | the loop stops at the first entry whose test raises, or at the end; what it has emitted is the steady selection over the entries before that point, in feed order |
| `Poller.Step` | extensions/eda/plugins/event_source/rss.py:108-136 | `first_poll` only goes from true to false, and only through the cold-start branch; every event carries `feed_name`; an aborted cycle leaves the state unchanged |
| `CycleProperties.FailedFetchIsNoOp` | extensions/eda/plugins/event_source/rss.py:110-111 | a fetch that produced no text emits nothing and keeps both the watermark and `first_poll` |
| `CycleProperties.ColdStartEmitsFirstEntryOnly` | extensions/eda/plugins/event_source/rss.py:114-122 | on a cold start at most `entries[0]` is emitted, and it is emitted exactly when there is no search string or the string is in its summary; the cold start is used up whether or not the filter passed; the cycle aborts only on a missing summary under a search string |
| `CycleProperties.EmptyFeedKeepsColdStart` | extensions/eda/plugins/event_source/rss.py:114-132 | a parsed feed with no entries emits nothing, keeps `first_poll` and takes the feed's date as the watermark |
| `CycleProperties.SteadyEmitsNewerMatching` | extensions/eda/plugins/event_source/rss.py:123-132 | with a watermark and no cold start, the cycle aborts exactly when some entry raises; otherwise it emits exactly the strictly newer entries that pass the search, in feed order; an aborted cycle has emitted that selection over the entries before the first one that raised |
| `CycleProperties.NoWatermarkEmitsNothing` | extensions/eda/plugins/event_source/rss.py:114-132 | with neither a cold start nor a watermark, nothing is emitted and only the feed's date is recorded |
| `CycleProperties.WatermarkFollowsFeed` | extensions/eda/plugins/event_source/rss.py:132 | after a parse that runs to the end, the watermark is the feed's own date, or None when the feed has none |
| `CycleProperties.EventsAreLabelled` | extensions/eda/plugins/event_source/rss.py:115-130 | every event decorates one of the parsed entries and carries `feed_name` equal to the configured name |
| `CycleProperties.FirstPollWithoutMostRecent` | extensions/eda/plugins/event_source/rss.py:105-132 | with most-recent-item mode off, the first poll emits nothing and only sets the watermark |
| `Runs.Run` | extensions/eda/plugins/event_source/rss.py:105-137 | over any sequence of cycles `first_poll` never comes back once cleared, every event carries `feed_name`, and a run of failed fetches emits nothing and keeps the state |
| `Runs.FailuresAreInvisible` | extensions/eda/plugins/event_source/rss.py:108-137 | removing the failed fetches from a run changes neither the events emitted nor the final state |
| `Runs.FailureKeepsWatermark` | extensions/eda/plugins/event_source/rss.py:110-134 | after a failed cycle, the next cycle starts from the state the cycle before the failure left |
| `Runs.AbortedCycleRepeats` | extensions/eda/plugins/event_source/rss.py:109-136 | an aborted cycle leaves the state as it was, so serving the same feed again emits the same events a second time |
| `Runs.LaggingFeedDateRepeats` | extensions/eda/plugins/event_source/rss.py:123-132 | when the feed's own date stays at the watermark and no entry raises, a second poll emits again every entry newer than the watermark that passes the search: two polls emit the steady selection twice and leave the state unchanged |
| `Runs.WellFormedNeverRaises` | extensions/eda/plugins/event_source/rss.py:116-125 | on a feed whose entries all have a date, and a summary when a search string is set, no entry raises |
| `Runs.EmittingCycleArms` | extensions/eda/plugins/event_source/rss.py:114-132 | a well-formed cycle that emits anything leaves the cold start used up and the watermark equal to the feed's date, which is at least every emitted date |
| `Runs.ArmedStaysArmed` | extensions/eda/plugins/event_source/rss.py:123-134 | once past the cold start with a watermark at least some date, any cycle (failed, aborted or complete) keeps that, as long as a parsed feed states a date not below it |
| `Runs.ArmedEmitsAbove` | extensions/eda/plugins/event_source/rss.py:123-130 | past the cold start, every event of any cycle, including the events of a cycle cut short by an exception, is strictly newer than any date at or below the watermark |
| `Runs.ArmedUntil` | extensions/eda/plugins/event_source/rss.py:108-137 | the guarantee after an emitting cycle persists through every later cycle of a well-behaved feed |
| `Runs.InitialUntilParsed` | extensions/eda/plugins/event_source/rss.py:105-111 | as long as every fetch has failed, the poller is still in its initial state: no watermark, first poll pending |
| `Runs.OnlyAfterFirstPoll` | extensions/eda/plugins/event_source/rss.py:105-132 | with most-recent-item mode off, on a well-behaved feed, every event is strictly newer than the feed's date at the first successful poll, and nothing is emitted up to that poll; this is the plugin's documented promise (rss.py:17) that only items that occurred after it started are retrieved |
| `Runs.LaterCyclesEmitNewer` | extensions/eda/plugins/event_source/rss.py:108-137 | on a well-behaved feed, every event of a later cycle is strictly newer than every event of an earlier cycle, so no entry is emitted twice |
| `Scenarios.OnlyStrictlyNewerEmitted` | extensions/eda/plugins/event_source/rss.py:123-132 | entries dated T-2, T-1 and T0 against a watermark at T-1 emit only the T0 entry |
| `Scenarios.SearchIsCaseSensitive` | extensions/eda/plugins/event_source/rss.py:116 | `python` is not in "A post about Python tips" but is in "python rocks" |
| `Scenarios.TagsLabelSettings` | extensions/eda/plugins/event_source/rss.py:101-104 | the path `tags.label` gives the keys `tags` and `label`; a feed without interval or name gets 7200 and `''` |
| `Scenarios.ContentTagsFound` | extensions/eda/plugins/event_source/rss.py:117-119 | an entry `{tags: {label: "news"}}` is emitted with `content_tags` set to "news" |
| `Scenarios.ContentTagsAbsent` | extensions/eda/plugins/event_source/rss.py:117-119 | an entry `{tags: None}` is emitted without a `content_tags` key |

"Well-behaved" (`Runs.WellBehaved`) means three things. Every parsed feed
states its own date. Each of its entries has a date no later than the
feed's, and a summary when a search string is set. The feed's date never
goes back from one poll to the next. Without these conditions the source
can re-emit. An entry without a date aborts the cycle. So does a missing
`summary` under a search string, on the cold-start entry or on an entry
newer than the watermark (`Runs.AbortedCycleRepeats`). A feed date older
than an entry leaves it above the next watermark
(`Runs.LaggingFeedDateRepeats`).

## Left out

- `fetch_rss_feed` and aiohttp (rss.py:86-96) are network I/O. Only their result is modelled: `Failed` for the empty text.
- `feedparser.parse` (rss.py:112) is a foreign library. Its output is an input to `Step`: the feed's optional date and the entry list, each entry with an optional `summary`, an optional `updated_parsed` and its other dictionary keys. FeedParserDict key aliases are not modelled; the projection sees the entry as a plain dict.
- The asyncio queue, `sleep` and `gather` (rss.py:121, 130, 137, 144-146) exist only to run independent copies of the loop. Emission is the returned event sequence, and the interval is computed but not slept. Ordering across feeds is not modelled, since the code promises none.
- Logging, `DOCUMENTATION`, `EXAMPLES` and the `__main__` block with `MockQueue` (rss.py:9-77, 148-162) are configuration plumbing.
- Configuration errors are not modelled, and they are not isolated per feed. A non-string `content_tags` raises at rss.py:102, and a per-feed `interval` that `asyncio.sleep` rejects (a string, say) raises at rss.py:137. Both are outside the `try`. The exception leaves `poll_feed`, and `asyncio.gather` (rss.py:146) passes it on out of `main`. That closes the shared session, and the whole plugin stops, every other feed's poller included. The model types `content_tags` as a string and the per-feed `interval` as an integer, so these cases cannot arise in it.
- Non-integer intervals are not modelled. A float per-feed `interval` such as 0.5 is valid in the source and is passed straight to `sleep`. The global `interval` goes through `int()` (rss.py:140). The model has integer intervals only.
- An explicit null `name` would be passed on as `feed_name` None. The model types `name` as an optional string, where absent means `''`.
- `Entry.summary` is modelled as a string. A summary of another type would make `in` raise or behave differently.

=== FILE: cycle_properties.dfy ===
/** What one poll cycle promises, branch by branch. */
module CycleProperties {
  import opened Wrappers
  import opened Timestamps
  import opened Strings
  import opened Values
  import opened Poller

  /** A fetch that produced no text emits nothing and leaves both state variables alone. */
  lemma FailedFetchIsNoOp(s: Settings, mostRecent: bool, st: PollerState)
    ensures Step(s, mostRecent, st, Failed) == Cycle([], st, NoData)
  {
  }

  /**
    Cold start: at most the feed's first entry is emitted, and it is emitted
    exactly when there is no search string or the search string occurs in its
    summary; either way the cold start is used up. The only way out is a
    missing summary under a search string, which raises and changes nothing.
   */
  lemma ColdStartEmitsFirstEntryOnly(s: Settings, mostRecent: bool, st: PollerState, fetch: Fetch)
    requires ColdStart(mostRecent, st, fetch)
    ensures var r := Step(s, mostRecent, st, fetch);
      && |r.events| <= 1
      && (|r.events| == 1 ==> r.events[0] == Decorate(s, fetch.entries[0]))
      && (r.status == Aborted <==> s.search.Some? && fetch.entries[0].summary.None?)
      && (r.status != Aborted ==>
            && (|r.events| == 1 <==>
                  s.search.None? || Contains(fetch.entries[0].summary.value, s.search.value))
            && r.next == PollerState(fetch.feedUpdated, false))
  {
  }

  /** A parsed feed without entries emits nothing and does not use up the cold start. */
  lemma EmptyFeedKeepsColdStart(s: Settings, mostRecent: bool, st: PollerState, feedUpdated: Option<Timestamp>)
    ensures Step(s, mostRecent, st, Parsed(feedUpdated, [])) == Cycle([], PollerState(feedUpdated, st.firstPoll), Polled)
  {
    assert ScanEntries(s, st.lastUpdated.GetOr([]), []).events == [];
  }

  /**
    Steady state (a watermark is set and the cold-start branch does not fire):
    the cycle completes exactly when no entry raises, and then it emits the
    entries strictly newer than the watermark that pass the search filter, in
    feed order. When it stops early it has emitted the same selection taken
    over the entries before the one that raised.
   */
  lemma SteadyEmitsNewerMatching(s: Settings, mostRecent: bool, st: PollerState, fetch: Fetch)
    requires fetch.Parsed? && !ColdStart(mostRecent, st, fetch) && st.lastUpdated.Some?
    ensures var r := Step(s, mostRecent, st, fetch);
      var w := st.lastUpdated.value;
      && (r.status == Aborted <==> exists i :: 0 <= i < |fetch.entries| && Raises(s, w, fetch.entries[i]))
      && (r.status != Aborted ==>
            r.events == Selected(s, w, fetch.entries) && r.next == PollerState(fetch.feedUpdated, st.firstPoll))
      && (r.status == Aborted ==>
            exists k :: 0 <= k < |fetch.entries| && Raises(s, w, fetch.entries[k])
              && (forall i :: 0 <= i < k ==> !Raises(s, w, fetch.entries[i]))
              && r.events == Selected(s, w, fetch.entries[..k]))
  {
    var scan := ScanEntries(s, st.lastUpdated.value, fetch.entries);
    assert fetch.entries[..|fetch.entries|] == fetch.entries;
    if scan.aborted {
      assert Raises(s, st.lastUpdated.value, fetch.entries[scan.stop]);
    }
  }

  /** With neither a cold start nor a watermark, a cycle only records the feed's date. */
  lemma NoWatermarkEmitsNothing(s: Settings, mostRecent: bool, st: PollerState, fetch: Fetch)
    requires fetch.Parsed? && !ColdStart(mostRecent, st, fetch) && st.lastUpdated.None?
    ensures Step(s, mostRecent, st, fetch) == Cycle([], PollerState(fetch.feedUpdated, st.firstPoll), Polled)
  {
  }

  /** A cycle that parses to the end replaces the watermark by the feed's own date, even by no date at all. */
  lemma WatermarkFollowsFeed(s: Settings, mostRecent: bool, st: PollerState, fetch: Fetch)
    requires fetch.Parsed?
    ensures var r := Step(s, mostRecent, st, fetch);
      r.status != Aborted ==> r.next.lastUpdated == fetch.feedUpdated
    ensures Step(s, mostRecent, st, fetch).status != NoData
  {
  }

  /** Every event carries `feed_name`, and `content_tags` only when the configured path projects to a value. */
  lemma EventsAreLabelled(s: Settings, mostRecent: bool, st: PollerState, fetch: Fetch, k: nat)
    requires k < |Step(s, mostRecent, st, fetch).events|
    ensures var ev := Step(s, mostRecent, st, fetch).events[k];
      && fetch.Parsed?
      && (exists i :: 0 <= i < |fetch.entries| && ev == Decorate(s, fetch.entries[i]))
      && Get(ev.raw, "feed_name") == Str(s.feedName)
  {
    var r := Step(s, mostRecent, st, fetch);
    var ev := r.events[k];
    if !ColdStart(mostRecent, st, fetch) {
      var w := st.lastUpdated.value;
      var scan := ScanEntries(s, w, fetch.entries);
      assert ev in Selected(s, w, fetch.entries[..scan.stop]);
      SelectedMembership(s, w, fetch.entries[..scan.stop], ev);
      var i :| 0 <= i < scan.stop && NewAndMatching(s, w, fetch.entries[..scan.stop][i])
        && ev == Decorate(s, fetch.entries[..scan.stop][i]);
      assert fetch.entries[..scan.stop][i] == fetch.entries[i];
    }
  }

  /** With most-recent-item mode off, the first poll emits nothing and only sets the watermark. */
  lemma FirstPollWithoutMostRecent(s: Settings, feedUpdated: Option<Timestamp>, entries: seq<Entry>)
    ensures Step(s, false, Initial, Parsed(feedUpdated, entries)) == Cycle([], PollerState(feedUpdated, true), Polled)
  {
  }
}

=== FILE: poller.dfy ===
/**
  One feed poller of the RSS event source: its configuration with the
  defaults filled in, the decoration of an entry into an event, and one poll
  cycle as a pure step from (state, fetch outcome) to (events, next state).
  Fetching, parsing, the output queue and the sleep between cycles stay
  outside: the fetch-and-parse result of a cycle is an input, the events put
  on the queue are an output, and the sleep only uses `Settings.interval`.
 */
module Poller {
  import opened Wrappers
  import opened Timestamps
  import opened Strings
  import opened Values

  /** The global poll interval, in seconds, when the arguments give none. */
  const DefaultInterval := 7200

  /** One element of `feed_configs`; every key may be absent. */
  datatype FeedConfig = FeedConfig(
    url: Option<string>,
    search: Option<string>,
    contentTags: Option<string>,
    interval: Option<int>,
    name: Option<string>)

  /** The plugin's arguments; every key may be absent. */
  datatype Args = Args(
    feedConfigs: Option<seq<FeedConfig>>,
    interval: Option<int>,
    mostRecentItem: Option<bool>)

  /** What a poller works with once its configuration has been read. */
  datatype Settings = Settings(
    url: Option<string>,
    search: Option<string>,
    tagKeys: seq<string>,
    interval: int,
    feedName: string)

  /**
    A parsed feed entry: the `summary` and `updated_parsed` attributes, each
    possibly missing, and the rest of the entry's dictionary. The two
    attributes are the dictionary's `summary` and `updated_parsed` keys, so
    `raw` is meant not to hold those keys (see `Normal`).
   */
  datatype Entry = Entry(summary: Option<string>, updated: Option<Timestamp>, raw: map<string, Value>)

  /** The entry's dictionary holds `summary` and `updated_parsed` only through the typed attributes. */
  ghost predicate Normal(e: Entry) {
    "summary" !in e.raw && "updated_parsed" !in e.raw
  }

  /** What one fetch-and-parse produced: no text at all, or the feed's own date and its entries. */
  datatype Fetch = Failed | Parsed(feedUpdated: Option<Timestamp>, entries: seq<Entry>)

  /** The two variables that survive from one cycle to the next. */
  datatype PollerState = PollerState(lastUpdated: Option<Timestamp>, firstPoll: bool)

  /** How a cycle ended: nothing fetched, parsed to the end, or stopped by an exception. */
  datatype Status = NoData | Polled | Aborted

  datatype Cycle = Cycle(events: seq<Entry>, next: PollerState, status: Status)

  const Initial := PollerState(None, true)

  // ---------------------------------------------------------------- configuration

  /** The keys of the content-tags path: none when the path is absent or empty, else its pieces between dots. */
  function TagKeys(path: Option<string>): (keys: seq<string>)
    ensures |keys| == 0 <==> path.None? || path.value == ""
    ensures path.Some? && path.value != "" ==> Join(keys, '.') == path.value && Free(keys, '.')
  {
    match path
    case None => []
    case Some(p) =>
      if p == "" then []
      else
        JoinSplit(p, '.');
        SplitPiecesFree(p, '.');
        Split(p, '.')
  }

  /** Python's `interval or default`: a per-feed interval of 0 or none falls back to the default. */
  function EffectiveInterval(interval: Option<int>, default: int): (r: int)
    ensures r == default || interval == Some(r)
    ensures r == default <== interval.None? || interval == Some(0)
    ensures interval.Some? && interval.value != 0 ==> r == interval.value
    ensures r != default ==> r != 0
  {
    match interval
    case Some(n) => if n != 0 then n else default
    case None => default
  }

  function Setup(cfg: FeedConfig, defaultInterval: int): (s: Settings)
    ensures s.url == cfg.url && s.search == cfg.search
    ensures s.feedName == "" <== cfg.name.None?
    ensures cfg.name.Some? ==> s.feedName == cfg.name.value
    ensures cfg.contentTags.Some? && cfg.contentTags.value != "" ==> Join(s.tagKeys, '.') == cfg.contentTags.value
    ensures cfg.contentTags.Some? && cfg.contentTags.value != "" ==> Free(s.tagKeys, '.')
    ensures |s.tagKeys| == 0 <==> cfg.contentTags.None? || cfg.contentTags.value == ""
    ensures s.interval == defaultInterval || Some(s.interval) == cfg.interval
    ensures s.interval == 0 ==> defaultInterval == 0
    ensures cfg.interval.Some? && cfg.interval.value != 0 ==> s.interval == cfg.interval.value
  {
    Settings(cfg.url, cfg.search, TagKeys(cfg.contentTags), EffectiveInterval(cfg.interval, defaultInterval), cfg.name.GetOr(""))
  }

  /** The plugin's entry point: one poller per configured feed, all sharing the global settings. */
  function Launch(args: Args): (r: (seq<Settings>, bool))
    ensures args.feedConfigs.None? ==> r.0 == []
    ensures args.feedConfigs.Some? ==> |r.0| == |args.feedConfigs.value|
    ensures args.feedConfigs.Some? ==>
      forall i :: 0 <= i < |r.0| ==>
        r.0[i] == Setup(args.feedConfigs.value[i], args.interval.GetOr(DefaultInterval))
    ensures r.1 <==> args.mostRecentItem == Some(true)
  {
    var configs := args.feedConfigs.GetOr([]);
    var default := args.interval.GetOr(DefaultInterval);
    (seq(|configs|, i requires 0 <= i < |configs| => Setup(configs[i], default)), args.mostRecentItem.GetOr(false))
  }

  // ---------------------------------------------------------------- decoration

  function TimestampValue(t: Timestamp): Value {
    List(seq(|t|, i requires 0 <= i < |t| => Int(t[i])))
  }

  /** The entry as a dict, as the projection sees it: its raw keys plus `summary` and `updated_parsed` when present. */
  function AsValue(e: Entry): (v: Value)
    ensures v.Map?
    ensures e.summary.Some? ==> "summary" in v.fields && v.fields["summary"] == Str(e.summary.value)
    ensures e.updated.Some? ==> "updated_parsed" in v.fields && v.fields["updated_parsed"] == TimestampValue(e.updated.value)
    ensures Normal(e) ==> ("summary" in v.fields <==> e.summary.Some?) && ("updated_parsed" in v.fields <==> e.updated.Some?)
    ensures forall k :: k in e.raw && k != "summary" && k != "updated_parsed" ==> k in v.fields && v.fields[k] == e.raw[k]
    ensures v.fields.Keys <= e.raw.Keys + {"summary", "updated_parsed"}
  {
    var withSummary := if e.summary.Some? then e.raw["summary" := Str(e.summary.value)] else e.raw;
    Map(if e.updated.Some? then withSummary["updated_parsed" := TimestampValue(e.updated.value)] else withSummary)
  }

  /** The value to attach as `content_tags`: none when the path is empty or projects to None. */
  function ContentTags(s: Settings, e: Entry): (r: Option<Value>)
    ensures r.Some? <==> |s.tagKeys| > 0 && GetNested(AsValue(e), s.tagKeys) != Null
    ensures r.Some? ==> r.value == GetNested(AsValue(e), s.tagKeys)
  {
    if |s.tagKeys| == 0 then None
    else
      var v := GetNested(AsValue(e), s.tagKeys);
      if v == Null then None else Some(v)
  }

  /** The event put on the queue: the entry itself, with `content_tags` (when found) and `feed_name` set. */
  function Decorate(s: Settings, e: Entry): (ev: Entry)
    ensures ev.summary == e.summary && ev.updated == e.updated
    ensures "feed_name" in ev.raw && ev.raw["feed_name"] == Str(s.feedName)
    ensures ContentTags(s, e).Some? ==> "content_tags" in ev.raw && ev.raw["content_tags"] == ContentTags(s, e).value
    ensures ContentTags(s, e).None? ==> Get(ev.raw, "content_tags") == Get(e.raw, "content_tags")
    ensures forall k :: k in e.raw && k != "feed_name" && k != "content_tags" ==> k in ev.raw && ev.raw[k] == e.raw[k]
    ensures ev.raw.Keys == e.raw.Keys + {"feed_name"} + (if ContentTags(s, e).Some? then {"content_tags"} else {})
  {
    var tags := ContentTags(s, e);
    var withTags := if tags.Some? then e.raw["content_tags" := tags.value] else e.raw;
    e.(raw := withTags["feed_name" := Str(s.feedName)])
  }

  // ---------------------------------------------------------------- selection

  /**
    Python's `search is None or search in entry.summary`: `Some(passes)`, or
    `None` when reading the missing summary raises. The summary is only read
    when a search string is set.
   */
  function SearchHit(search: Option<string>, summary: Option<string>): (r: Option<bool>)
    ensures r.None? <==> search.Some? && summary.None?
    ensures r == Some(true) <==> search.None? || (summary.Some? && Contains(summary.value, search.value))
  {
    match search
    case None => Some(true)
    case Some(needle) =>
      match summary
      case None => None
      case Some(text) => Some(Contains(text, needle))
  }

  /** An entry the steady branch emits: strictly newer than the watermark and passing the search filter. */
  predicate NewAndMatching(s: Settings, watermark: Timestamp, e: Entry) {
    e.updated.Some? && Less(watermark, e.updated.value) && SearchHit(s.search, e.summary) == Some(true)
  }

  /** An entry on which the steady branch raises: no timestamp to compare, or a newer entry without a summary to search. */
  predicate Raises(s: Settings, watermark: Timestamp, e: Entry)
    ensures Raises(s, watermark, e) <==>
      e.updated.None? || (Less(watermark, e.updated.value) && s.search.Some? && e.summary.None?)
    ensures s.search.None? && e.updated.Some? ==> !Raises(s, watermark, e)
  {
    e.updated.None? || (Less(watermark, e.updated.value) && SearchHit(s.search, e.summary).None?)
  }

  /** Reference definition of the steady branch: the new, matching entries, decorated, in feed order. */
  function Selected(s: Settings, watermark: Timestamp, entries: seq<Entry>): seq<Entry>
    decreases |entries|
  {
    if |entries| == 0 then []
    else
      (if NewAndMatching(s, watermark, entries[0]) then [Decorate(s, entries[0])] else [])
      + Selected(s, watermark, entries[1..])
  }

  /** An event is selected exactly when it decorates a new, matching entry of the feed. */
  lemma {:induction false} SelectedMembership(s: Settings, watermark: Timestamp, entries: seq<Entry>, ev: Entry)
    ensures ev in Selected(s, watermark, entries) <==>
      exists i :: 0 <= i < |entries| && NewAndMatching(s, watermark, entries[i]) && ev == Decorate(s, entries[i])
    decreases |entries|
  {
    if |entries| > 0 {
      SelectedMembership(s, watermark, entries[1..], ev);
      if ev in Selected(s, watermark, entries[1..]) {
        var i :| 0 <= i < |entries[1..]| && NewAndMatching(s, watermark, entries[1..][i]) && ev == Decorate(s, entries[1..][i]);
        assert entries[i + 1] == entries[1..][i];
      }
      if exists i :: 0 <= i < |entries| && NewAndMatching(s, watermark, entries[i]) && ev == Decorate(s, entries[i]) {
        var i :| 0 <= i < |entries| && NewAndMatching(s, watermark, entries[i]) && ev == Decorate(s, entries[i]);
        if i > 0 {
          assert entries[1..][i - 1] == entries[i];
        }
      }
    }
  }

  /** Every selected event is strictly newer than the watermark and carries the feed's name. */
  lemma SelectedAreNewer(s: Settings, watermark: Timestamp, entries: seq<Entry>, ev: Entry)
    requires ev in Selected(s, watermark, entries)
    ensures ev.updated.Some? && Less(watermark, ev.updated.value)
    ensures Get(ev.raw, "feed_name") == Str(s.feedName)
  {
    SelectedMembership(s, watermark, entries, ev);
  }

  datatype Scan = Scan(events: seq<Entry>, aborted: bool, stop: nat)

  /**
    The steady branch's `for entry in feed.entries` loop. It emits each new,
    matching entry as it goes and stops at the first entry on which the test
    raises; the events put before that stay emitted. `stop` is the index of
    that entry, or the number of entries when the loop ran to the end.
   */
  function ScanEntries(s: Settings, watermark: Timestamp, entries: seq<Entry>): (r: Scan)
    ensures r.stop <= |entries|
    ensures r.aborted <==> r.stop < |entries|
    ensures r.aborted ==> Raises(s, watermark, entries[r.stop])
    ensures forall i :: 0 <= i < r.stop ==> !Raises(s, watermark, entries[i])
    ensures r.events == Selected(s, watermark, entries[..r.stop])
    decreases |entries|
  {
    if |entries| == 0 then Scan([], false, 0)
    else
      var e := entries[0];
      if Raises(s, watermark, e) then Scan([], true, 0)
      else
        var rest := ScanEntries(s, watermark, entries[1..]);
        assert entries[..rest.stop + 1][1..] == entries[1..][..rest.stop];
        assert forall i :: 1 <= i < rest.stop + 1 ==> entries[i] == entries[1..][i - 1];
        var head := if NewAndMatching(s, watermark, e) then [Decorate(s, e)] else [];
        Scan(head + rest.events, rest.aborted, rest.stop + 1)
  }

  // ---------------------------------------------------------------- one cycle

  /** The cold-start branch fires: first poll, most-recent-item mode, and the parsed feed has entries. */
  predicate ColdStart(mostRecent: bool, st: PollerState, fetch: Fetch) {
    fetch.Parsed? && st.firstPoll && mostRecent && |fetch.entries| > 0
  }

  /**
    One iteration of the poll loop, from the fetched text to the state the
    next iteration starts with. An exception inside the iteration (a missing
    `summary` or `updated_parsed`) ends it early: the events put before it
    stay on the queue and the state is left as it was.
   */
  function Step(s: Settings, mostRecent: bool, st: PollerState, fetch: Fetch): (r: Cycle)
    ensures r.next.firstPoll ==> st.firstPoll
    ensures r.next.firstPoll != st.firstPoll ==> ColdStart(mostRecent, st, fetch)
    ensures forall k :: 0 <= k < |r.events| ==> Get(r.events[k].raw, "feed_name") == Str(s.feedName)
    ensures r.status == Aborted ==> r.next == st
  {
    match fetch
    case Failed => Cycle([], st, NoData)
    case Parsed(feedUpdated, entries) =>
      if ColdStart(mostRecent, st, fetch) then
        match SearchHit(s.search, entries[0].summary)
        case None => Cycle([], st, Aborted)
        case Some(hit) =>
          Cycle(if hit then [Decorate(s, entries[0])] else [], PollerState(feedUpdated, false), Polled)
      else if st.lastUpdated.Some? then
        var scan := ScanEntries(s, st.lastUpdated.value, entries);
        assert forall ev :: ev in scan.events ==> Get(ev.raw, "feed_name") == Str(s.feedName) by {
          forall ev | ev in scan.events {
            SelectedAreNewer(s, st.lastUpdated.value, entries[..scan.stop], ev);
          }
        }
        if scan.aborted then Cycle(scan.events, st, Aborted)
        else Cycle(scan.events, PollerState(feedUpdated, st.firstPoll), Polled)
      else Cycle([], PollerState(feedUpdated, st.firstPoll), Polled)
  }
}

=== FILE: runs.dfy ===
/**
  A poller's life as a fold of `Step` over the outcomes of its successive
  fetches, and what holds across cycles: failed fetches are invisible, and on
  a well-behaved feed no entry is emitted twice.
 */
module Runs {
  import opened Wrappers
  import opened Timestamps
  import opened Values
  import opened Poller
  import opened CycleProperties

  datatype RunResult = RunResult(events: seq<Entry>, final: PollerState)

  /**
    The `while True` loop over the cycles `fetches`, started from `st`: all
    events emitted, in order, and the state it ends in.
   */
  function Run(s: Settings, mostRecent: bool, st: PollerState, fetches: seq<Fetch>): (r: RunResult)
    ensures r.final.firstPoll ==> st.firstPoll
    ensures forall k :: 0 <= k < |r.events| ==> Get(r.events[k].raw, "feed_name") == Str(s.feedName)
    ensures (forall k :: 0 <= k < |fetches| ==> fetches[k].Failed?) ==> r == RunResult([], st)
    decreases |fetches|
  {
    if |fetches| == 0 then RunResult([], st)
    else
      var before := Run(s, mostRecent, st, fetches[..|fetches| - 1]);
      var c := Step(s, mostRecent, before.final, fetches[|fetches| - 1]);
      RunResult(before.events + c.events, c.next)
  }

  /** The state cycle `i` starts from. */
  function StateBefore(s: Settings, mostRecent: bool, st: PollerState, fetches: seq<Fetch>, i: nat): PollerState
    requires i <= |fetches|
  {
    Run(s, mostRecent, st, fetches[..i]).final
  }

  /** The events cycle `i` emits. */
  function CycleEvents(s: Settings, mostRecent: bool, st: PollerState, fetches: seq<Fetch>, i: nat): seq<Entry>
    requires i < |fetches|
  {
    Step(s, mostRecent, StateBefore(s, mostRecent, st, fetches, i), fetches[i]).events
  }

  function WithoutFailures(fetches: seq<Fetch>): (r: seq<Fetch>)
    ensures forall k :: 0 <= k < |r| ==> r[k].Parsed?
    ensures |r| <= |fetches|
    decreases |fetches|
  {
    if |fetches| == 0 then []
    else
      var last := fetches[|fetches| - 1];
      WithoutFailures(fetches[..|fetches| - 1]) + (if last.Failed? then [] else [last])
  }

  /** Failed fetches change nothing: the run emits the same events and ends in the same state without them. */
  lemma {:induction false} FailuresAreInvisible(s: Settings, mostRecent: bool, st: PollerState, fetches: seq<Fetch>)
    ensures Run(s, mostRecent, st, fetches) == Run(s, mostRecent, st, WithoutFailures(fetches))
    decreases |fetches|
  {
    if |fetches| > 0 {
      var init := fetches[..|fetches| - 1];
      var last := fetches[|fetches| - 1];
      FailuresAreInvisible(s, mostRecent, st, init);
      if last.Parsed? {
        var kept := WithoutFailures(init) + [last];
        assert kept[..|kept| - 1] == WithoutFailures(init);
      } else {
        assert WithoutFailures(fetches) == WithoutFailures(init) + [];
        assert WithoutFailures(init) + [] == WithoutFailures(init);
      }
    }
  }

  /** A failed cycle between two others: the next cycle starts from the state the previous one left. */
  lemma {:induction false} FailureKeepsWatermark(s: Settings, mostRecent: bool, st: PollerState, fetches: seq<Fetch>, n: nat)
    requires n < |fetches| && fetches[n].Failed?
    ensures StateBefore(s, mostRecent, st, fetches, n + 1) == StateBefore(s, mostRecent, st, fetches, n)
    ensures CycleEvents(s, mostRecent, st, fetches, n) == []
  {
    assert fetches[..n + 1][..n] == fetches[..n];
  }

  /**
    A cycle cut short by an exception leaves the state unchanged, so when the
    feed is served unchanged again the same events are emitted a second time.
   */
  lemma AbortedCycleRepeats(s: Settings, mostRecent: bool, st: PollerState, fetch: Fetch)
    requires Step(s, mostRecent, st, fetch).status == Aborted
    ensures var r := Step(s, mostRecent, st, fetch);
      Run(s, mostRecent, st, [fetch, fetch]) == RunResult(r.events + r.events, st)
  {
    var r := Step(s, mostRecent, st, fetch);
    assert [fetch, fetch][..1] == [fetch];
    assert [fetch][..0] == [];
    assert Run(s, mostRecent, st, [fetch]) == RunResult([] + r.events, st);
    assert [] + r.events == r.events;
  }

  /**
    A feed whose own date stays at the watermark `d`: every poll of it emits
    again every entry newer than `d` that passes the search, because the
    watermark never moves above those entries.
   */
  lemma LaggingFeedDateRepeats(s: Settings, mostRecent: bool, d: Timestamp, entries: seq<Entry>)
    requires forall i :: 0 <= i < |entries| ==> !Raises(s, d, entries[i])
    ensures var fetch := Parsed(Some(d), entries);
      var st := PollerState(Some(d), false);
      Run(s, mostRecent, st, [fetch, fetch])
        == RunResult(Selected(s, d, entries) + Selected(s, d, entries), st)
  {
    var fetch := Parsed(Some(d), entries);
    var st := PollerState(Some(d), false);
    SteadyEmitsNewerMatching(s, mostRecent, st, fetch);
    assert Step(s, mostRecent, st, fetch) == Cycle(Selected(s, d, entries), st, Polled);
    assert [fetch, fetch][..1] == [fetch];
    assert [fetch][..0] == [];
    assert Run(s, mostRecent, st, [fetch]) == RunResult([] + Selected(s, d, entries), st);
    assert [] + Selected(s, d, entries) == Selected(s, d, entries);
  }

  // ---------------------------------------------------------------- no re-emission

  /**
    A feed that behaves: it states its own date, every entry has a date no
    later than the feed's, and, when a search string is set, a summary.
   */
  ghost predicate WellFormed(s: Settings, fetch: Fetch) {
    fetch.Parsed? ==>
      && fetch.feedUpdated.Some?
      && forall k :: 0 <= k < |fetch.entries| ==>
           && fetch.entries[k].updated.Some?
           && (s.search.Some? ==> fetch.entries[k].summary.Some?)
           && LessEq(fetch.entries[k].updated.value, fetch.feedUpdated.value)
  }

  /** Every fetch well formed, and the feed's own date never goes back. */
  ghost predicate WellBehaved(s: Settings, fetches: seq<Fetch>) {
    && (forall k :: 0 <= k < |fetches| ==> WellFormed(s, fetches[k]))
    && (forall i, j :: 0 <= i < j < |fetches| && fetches[i].Parsed? && fetches[j].Parsed? ==>
          LessEq(fetches[i].feedUpdated.value, fetches[j].feedUpdated.value))
  }

  /** The poller is past its cold start and its watermark is at least `floor`. */
  ghost predicate Armed(mostRecent: bool, st: PollerState, floor: Timestamp) {
    st.lastUpdated.Some? && LessEq(floor, st.lastUpdated.value) && !(st.firstPoll && mostRecent)
  }

  /** Nothing raises on a well-formed feed. */
  lemma WellFormedNeverRaises(s: Settings, w: Timestamp, fetch: Fetch)
    requires fetch.Parsed? && WellFormed(s, fetch)
    ensures forall i :: 0 <= i < |fetch.entries| ==> !Raises(s, w, fetch.entries[i])
  {
  }

  /** A cycle that emits anything leaves the poller armed at the feed's date, with every event at or below it. */
  lemma EmittingCycleArms(s: Settings, mostRecent: bool, st: PollerState, fetch: Fetch, ev: Entry)
    requires WellFormed(s, fetch)
    requires ev in Step(s, mostRecent, st, fetch).events
    ensures fetch.Parsed?
    ensures ev.updated.Some? && LessEq(ev.updated.value, fetch.feedUpdated.value)
    ensures Step(s, mostRecent, st, fetch).next.lastUpdated == fetch.feedUpdated
    ensures Armed(mostRecent, Step(s, mostRecent, st, fetch).next, fetch.feedUpdated.value)
  {
    var r := Step(s, mostRecent, st, fetch);
    var k :| 0 <= k < |r.events| && r.events[k] == ev;
    EventsAreLabelled(s, mostRecent, st, fetch, k);
    var i :| 0 <= i < |fetch.entries| && ev == Decorate(s, fetch.entries[i]);
    if !ColdStart(mostRecent, st, fetch) {
      WellFormedNeverRaises(s, st.lastUpdated.value, fetch);
      SteadyEmitsNewerMatching(s, mostRecent, st, fetch);
    }
  }

  /** An armed poller stays armed through any cycle of a feed whose date has not gone below the floor. */
  lemma ArmedStaysArmed(s: Settings, mostRecent: bool, st: PollerState, fetch: Fetch, floor: Timestamp)
    requires Armed(mostRecent, st, floor)
    requires fetch.Parsed? ==> fetch.feedUpdated.Some? && LessEq(floor, fetch.feedUpdated.value)
    ensures Armed(mostRecent, Step(s, mostRecent, st, fetch).next, floor)
  {
    if fetch.Parsed? {
      SteadyEmitsNewerMatching(s, mostRecent, st, fetch);
    }
  }

  /** An armed poller only emits entries strictly above the floor, also in a cycle cut short by an exception. */
  lemma ArmedEmitsAbove(s: Settings, mostRecent: bool, st: PollerState, fetch: Fetch, floor: Timestamp, ev: Entry)
    requires Armed(mostRecent, st, floor)
    requires ev in Step(s, mostRecent, st, fetch).events
    ensures ev.updated.Some? && Less(floor, ev.updated.value)
  {
    var w := st.lastUpdated.value;
    SteadyEmitsNewerMatching(s, mostRecent, st, fetch);
    if Step(s, mostRecent, st, fetch).status == Aborted {
      var k :| 0 <= k < |fetch.entries| && Raises(s, w, fetch.entries[k])
        && (forall i :: 0 <= i < k ==> !Raises(s, w, fetch.entries[i]))
        && Step(s, mostRecent, st, fetch).events == Selected(s, w, fetch.entries[..k]);
      SelectedAreNewer(s, w, fetch.entries[..k], ev);
    } else {
      SelectedAreNewer(s, w, fetch.entries, ev);
    }
    LessEqThenLess(floor, w, ev.updated.value);
  }

  /** From cycle `i + 1` up to cycle `j` the poller stays armed at the date cycle `i` saw. */
  lemma {:induction false} ArmedUntil(s: Settings, mostRecent: bool, st: PollerState, fetches: seq<Fetch>, i: nat, j: nat)
    requires WellBehaved(s, fetches)
    requires i < j <= |fetches| && fetches[i].Parsed?
    requires Armed(mostRecent, StateBefore(s, mostRecent, st, fetches, i + 1), fetches[i].feedUpdated.value)
    ensures Armed(mostRecent, StateBefore(s, mostRecent, st, fetches, j), fetches[i].feedUpdated.value)
    decreases j - i
  {
    if j > i + 1 {
      ArmedUntil(s, mostRecent, st, fetches, i, j - 1);
      assert fetches[..j][..j - 1] == fetches[..j - 1];
      assert fetches[..j][j - 1] == fetches[j - 1];
      ArmedStaysArmed(s, mostRecent, StateBefore(s, mostRecent, st, fetches, j - 1), fetches[j - 1],
        fetches[i].feedUpdated.value);
    }
  }

  /** Before the first parsed cycle the poller is still in its initial state. */
  lemma {:induction false} InitialUntilParsed(s: Settings, mostRecent: bool, fetches: seq<Fetch>, k: nat)
    requires k <= |fetches|
    requires forall m :: 0 <= m < k ==> fetches[m].Failed?
    ensures StateBefore(s, mostRecent, Initial, fetches, k) == Initial
    decreases k
  {
    if k > 0 {
      InitialUntilParsed(s, mostRecent, fetches, k - 1);
      FailureKeepsWatermark(s, mostRecent, Initial, fetches, k - 1);
    }
  }

  /**
    With most-recent-item mode off, nothing emitted is older than the feed's
    date at the first successful poll: only entries that appeared after the
    poller started are emitted. Cycles up to that poll emit nothing.
   */
  lemma OnlyAfterFirstPoll(s: Settings, fetches: seq<Fetch>, i0: nat, j: nat, ev: Entry)
    requires WellBehaved(s, fetches)
    requires i0 < |fetches| && fetches[i0].Parsed?
    requires forall k :: 0 <= k < i0 ==> fetches[k].Failed?
    requires j < |fetches| && ev in CycleEvents(s, false, Initial, fetches, j)
    ensures i0 < j
    ensures ev.updated.Some? && Less(fetches[i0].feedUpdated.value, ev.updated.value)
  {
    if j < i0 {
      FailureKeepsWatermark(s, false, Initial, fetches, j);
      assert false;
    }
    InitialUntilParsed(s, false, fetches, i0);
    assert WellFormed(s, fetches[i0]);
    NoWatermarkEmitsNothing(s, false, Initial, fetches[i0]);
    if j == i0 {
      assert false;
    }
    assert fetches[..i0 + 1][..i0] == fetches[..i0];
    assert fetches[..i0 + 1][i0] == fetches[i0];
    var floor := fetches[i0].feedUpdated.value;
    assert Armed(false, StateBefore(s, false, Initial, fetches, i0 + 1), floor);
    ArmedUntil(s, false, Initial, fetches, i0, j);
    ArmedEmitsAbove(s, false, StateBefore(s, false, Initial, fetches, j), fetches[j], floor, ev);
  }

  /**
    On a well-behaved feed, anything emitted in a later cycle is strictly
    newer than anything emitted in an earlier one: no entry is emitted twice.
   */
  lemma LaterCyclesEmitNewer(s: Settings, mostRecent: bool, st: PollerState, fetches: seq<Fetch>,
                             i: nat, j: nat, a: Entry, b: Entry)
    requires WellBehaved(s, fetches)
    requires i < j < |fetches|
    requires a in CycleEvents(s, mostRecent, st, fetches, i)
    requires b in CycleEvents(s, mostRecent, st, fetches, j)
    ensures a.updated.Some? && b.updated.Some? && Less(a.updated.value, b.updated.value)
    ensures a != b
  {
    var before := StateBefore(s, mostRecent, st, fetches, i);
    assert fetches[..i + 1][..i] == fetches[..i];
    assert fetches[..i + 1][i] == fetches[i];
    assert WellFormed(s, fetches[i]);
    EmittingCycleArms(s, mostRecent, before, fetches[i], a);
    var floor := fetches[i].feedUpdated.value;
    ArmedUntil(s, mostRecent, st, fetches, i, j);
    assert WellFormed(s, fetches[j]);
    ArmedEmitsAbove(s, mostRecent, StateBefore(s, mostRecent, st, fetches, j), fetches[j], floor, b);
    LessEqThenLess(a.updated.value, floor, b.updated.value);
    if a == b {
      LessIrreflexive(a.updated.value);
    }
  }
}

=== FILE: scenarios.dfy ===
/** Concrete poll cycles: a watermark at work, the case-sensitive search, and a content-tags path. */
module Scenarios {
  import opened Wrappers
  import opened Timestamps
  import opened Strings
  import opened Values
  import opened Poller
  import opened CycleProperties

  const Plain := Settings(Some("http://example.com/rss"), None, [], 30, "Example RSS")

  // Noon on 1, 2 and 3 January 2024 as nine-field `struct_time`s:
  // year, month, day, hour, minute, second, weekday, day of year, DST flag.
  const TMinus2: Timestamp := [2024, 1, 1, 12, 0, 0, 0, 1, 0]
  const TMinus1: Timestamp := [2024, 1, 2, 12, 0, 0, 1, 2, 0]
  const T0: Timestamp := [2024, 1, 3, 12, 0, 0, 2, 3, 0]

  /** Entries dated T-2, T-1 and T0 against a watermark at T-1: only the T0 entry is emitted. */
  lemma OnlyStrictlyNewerEmitted()
    ensures var older := Entry(Some("a"), Some(TMinus2), map[]);
      var same := Entry(Some("b"), Some(TMinus1), map[]);
      var newer := Entry(Some("c"), Some(T0), map[]);
      Step(Plain, false, PollerState(Some(TMinus1), false), Parsed(Some(T0), [older, same, newer]))
        == Cycle([Decorate(Plain, newer)], PollerState(Some(T0), false), Polled)
  {
    var older := Entry(Some("a"), Some(TMinus2), map[]);
    var same := Entry(Some("b"), Some(TMinus1), map[]);
    var newer := Entry(Some("c"), Some(T0), map[]);
    LessIrreflexive(TMinus1);
    // the dates first differ in the day field
    assert FirstDifferenceAt(TMinus2, TMinus1, 2) && FirstDifferenceAt(TMinus1, T0, 2);
    LessIffFirstDifference(TMinus2, TMinus1);
    LessIffFirstDifference(TMinus1, T0);
    NotLessBothWays(TMinus2, TMinus1);
    assert !Less(TMinus1, TMinus2);
    assert Less(TMinus1, T0);
    var es := [older, same, newer];
    assert es[1..] == [same, newer] && es[1..][1..] == [newer] && es[1..][1..][1..] == [];
    assert !Raises(Plain, TMinus1, older) && !Raises(Plain, TMinus1, same) && !Raises(Plain, TMinus1, newer);
    assert !NewAndMatching(Plain, TMinus1, older) && !NewAndMatching(Plain, TMinus1, same);
    assert NewAndMatching(Plain, TMinus1, newer);
    assert Selected(Plain, TMinus1, [newer]) == [Decorate(Plain, newer)] + Selected(Plain, TMinus1, []);
    assert Selected(Plain, TMinus1, [same, newer]) == Selected(Plain, TMinus1, [newer]);
    assert Selected(Plain, TMinus1, es) == [Decorate(Plain, newer)];
    SteadyEmitsNewerMatching(Plain, false, PollerState(Some(TMinus1), false), Parsed(Some(T0), es));
  }

  /** The search filter is case-sensitive containment. */
  lemma SearchIsCaseSensitive()
    ensures !Contains("A post about Python tips", "python")
    ensures Contains("python rocks", "python")
  {
    assert StartsWith("python rocks", "python");
    var hay := "A post about Python tips";
    ContainsIffOccurs(hay, "python");
    // the only 'y' of the summary follows a capital 'P'
    assert hay == "A post about P" + "y" + "thon tips";
    assert 'y' !in "A post about P" && 'y' !in "thon tips";
    forall i | 0 <= i && i + 6 <= |hay|
      ensures !OccursAt(hay, "python", i)
    {
      if i == 13 {
        assert hay[i..i + 6][0] == 'P';
      } else if i + 1 < 14 {
        assert hay[i..i + 6][1] == "A post about P"[i + 1];
      } else {
        assert hay[i..i + 6][1] == "thon tips"[i + 1 - 15];
      }
    }
  }

  const TagsLabel := Settings(None, None, ["tags", "label"], 7200, "")

  /** A `tags.label` path splits into its two keys, and the feed falls back to the default interval and name. */
  lemma TagsLabelSettings()
    ensures Setup(FeedConfig(None, None, Some("tags.label"), None, None), DefaultInterval) == TagsLabel
  {
    var parts := ["tags", "label"];
    assert Join(parts, '.') == "tags.label";
    assert Free(parts, '.');
    SplitJoin(parts, '.');
  }

  /** A `tags.label` path attaches the label found in the entry. */
  lemma ContentTagsFound()
    ensures Decorate(TagsLabel, Entry(None, None, map["tags" := Map(map["label" := Str("news")])])).raw["content_tags"]
      == Str("news")
  {
    var keys := ["tags", "label"];
    var e := Entry(None, None, map["tags" := Map(map["label" := Str("news")])]);
    assert AsValue(e) == Map(e.raw);
    assert keys[1..] == ["label"] && keys[1..][1..] == [];
    assert PathTo(AsValue(e), keys, Str("news"));
    PresentPathGivesLeaf(AsValue(e), keys, Str("news"));
    assert ContentTags(TagsLabel, e) == Some(Str("news"));
  }

  /** With `tags` set to None the event gets no `content_tags` key. */
  lemma ContentTagsAbsent()
    ensures "content_tags" !in Decorate(TagsLabel, Entry(None, None, map["tags" := Null])).raw
  {
    var e := Entry(None, None, map["tags" := Null]);
    assert AsValue(e) == Map(e.raw);
    NonDictGivesNull(AsValue(e), ["tags", "label"], 1, Null);
  }
}

=== FILE: strings.dfy ===
/**
  The two string operations the poller uses: Python's `needle in hay` on two
  `str` values (the search filter) and `str.split('.')` (the content-tags path).
 */
module Strings {

  predicate StartsWith(hay: string, needle: string) {
    |needle| <= |hay| && hay[..|needle|] == needle
  }

  /** Python's `needle in hay`: case-sensitive containment; the empty needle is in every string. */
  predicate Contains(hay: string, needle: string)
    decreases |hay|
  {
    StartsWith(hay, needle) || (|hay| > 0 && Contains(hay[1..], needle))
  }

  /** Reference definition: `needle` occurs in `hay` starting at index `i`. */
  ghost predicate OccursAt(hay: string, needle: string, i: int) {
    0 <= i && i + |needle| <= |hay| && hay[i..i + |needle|] == needle
  }

  lemma {:induction false} ContainsIffOccurs(hay: string, needle: string)
    ensures Contains(hay, needle) <==> exists i :: OccursAt(hay, needle, i)
    decreases |hay|
  {
    if StartsWith(hay, needle) {
      assert OccursAt(hay, needle, 0);
    } else if |hay| > 0 {
      ContainsIffOccurs(hay[1..], needle);
      if Contains(hay[1..], needle) {
        var i :| OccursAt(hay[1..], needle, i);
        assert hay[1..][i..i + |needle|] == hay[i + 1..i + 1 + |needle|];
        assert OccursAt(hay, needle, i + 1);
      }
      if exists i :: OccursAt(hay, needle, i) {
        var i :| OccursAt(hay, needle, i);
        assert i != 0;
        assert hay[1..][i - 1..i - 1 + |needle|] == hay[i..i + |needle|];
        assert OccursAt(hay[1..], needle, i - 1);
      }
    }
  }

  /** Python's `s.split(sep)` with an explicit one-character separator: never empty, keeps empty pieces. */
  function Split(s: string, sep: char): (parts: seq<string>)
    ensures |parts| >= 1
    decreases |s|
  {
    if |s| == 0 then [""]
    else
      var rest := Split(s[1..], sep);
      if s[0] == sep then [""] + rest
      else [[s[0]] + rest[0]] + rest[1..]
  }

  /** Python's `sep.join(parts)`, the inverse of `Split`. */
  function Join(parts: seq<string>, sep: char): string
    decreases |parts|
  {
    if |parts| == 0 then ""
    else if |parts| == 1 then parts[0]
    else parts[0] + [sep] + Join(parts[1..], sep)
  }

  ghost predicate Free(parts: seq<string>, sep: char) {
    forall k :: 0 <= k < |parts| ==> sep !in parts[k]
  }

  /** Joining the pieces back with the separator gives the original string. */
  lemma {:induction false} JoinSplit(s: string, sep: char)
    ensures Join(Split(s, sep), sep) == s
    decreases |s|
  {
    if |s| > 0 {
      var rest := Split(s[1..], sep);
      JoinSplit(s[1..], sep);
      if s[0] == sep {
        assert ([""] + rest)[1..] == rest;
      } else {
        var parts := [[s[0]] + rest[0]] + rest[1..];
        if |rest| == 1 {
          assert parts == [[s[0]] + rest[0]];
        } else {
          assert parts[1..] == rest[1..];
          assert Join(rest, sep) == rest[0] + [sep] + Join(rest[1..], sep);
        }
      }
      assert s == [s[0]] + s[1..];
    }
  }

  /** No piece contains the separator. */
  lemma {:induction false} SplitPiecesFree(s: string, sep: char)
    ensures Free(Split(s, sep), sep)
    decreases |s|
  {
    if |s| > 0 {
      SplitPiecesFree(s[1..], sep);
      var rest := Split(s[1..], sep);
      if s[0] != sep {
        assert sep !in [s[0]] + rest[0];
      }
    }
  }

  /** A separator-free prefix glues onto the first piece. */
  lemma {:induction false} SplitFreePrefix(a: string, b: string, sep: char)
    requires sep !in a
    ensures Split(a + b, sep) == [a + Split(b, sep)[0]] + Split(b, sep)[1..]
    decreases |a|
  {
    if |a| > 0 {
      SplitFreePrefix(a[1..], b, sep);
      assert (a + b)[1..] == a[1..] + b;
      assert [a[0]] + (a[1..] + Split(b, sep)[0]) == a + Split(b, sep)[0];
    } else {
      var parts := Split(b, sep);
      assert a + b == b && a + parts[0] == parts[0];
      assert parts == [parts[0]] + parts[1..];
    }
  }

  /** Splitting a join of separator-free pieces recovers the pieces. */
  lemma {:induction false} SplitJoin(parts: seq<string>, sep: char)
    requires |parts| >= 1 && Free(parts, sep)
    ensures Split(Join(parts, sep), sep) == parts
    decreases |parts|
  {
    if |parts| == 1 {
      SplitFreePrefix(parts[0], "", sep);
      assert parts[0] + "" == parts[0];
    } else {
      var tail := Join(parts[1..], sep);
      SplitJoin(parts[1..], sep);
      SplitFreePrefix(parts[0], [sep] + tail, sep);
      assert parts[0] + [sep] + tail == parts[0] + ([sep] + tail);
      assert ([sep] + tail)[1..] == tail;
      assert parts[0] + "" == parts[0];
      assert parts == [parts[0]] + parts[1..];
    }
  }
}

=== FILE: timestamps.dfy ===
/**
  Feed dates as `feedparser` delivers them: a `time.struct_time`, which is a
  tuple of integers. Python compares tuples lexicographically; that order is
  modelled here and shown to be a strict total order, which is all the
  watermark logic relies on.
 */
module Timestamps {

  /**
    The fields of a `time.struct_time`, in order. A real `struct_time` always
    has nine fields, so the empty sequence never arises; the poller's
    `elif last_updated` test (false for an empty tuple) is therefore modelled
    as "a watermark is present".
   */
  type Timestamp = seq<int>

  /** Python's tuple `a < b`: the first differing field decides; a proper prefix is smaller. */
  predicate Less(a: Timestamp, b: Timestamp)
    decreases |a|
  {
    if |b| == 0 then false
    else if |a| == 0 then true
    else a[0] < b[0] || (a[0] == b[0] && Less(a[1..], b[1..]))
  }

  /** Python's tuple `a <= b`. */
  predicate LessEq(a: Timestamp, b: Timestamp) {
    a == b || Less(a, b)
  }

  /** Reference definition: `a` and `b` agree on the first `k` fields and `k` is where `a` falls below `b`. */
  ghost predicate FirstDifferenceAt(a: Timestamp, b: Timestamp, k: int) {
    && 0 <= k <= |a|
    && k < |b|
    && a[..k] == b[..k]
    && (k == |a| || a[k] < b[k])
  }

  lemma {:induction false} LessIffFirstDifference(a: Timestamp, b: Timestamp)
    ensures Less(a, b) <==> exists k :: FirstDifferenceAt(a, b, k)
    decreases |a|
  {
    if |b| == 0 {
      assert forall k :: !FirstDifferenceAt(a, b, k);
    } else if |a| == 0 {
      assert FirstDifferenceAt(a, b, 0);
    } else {
      LessIffFirstDifference(a[1..], b[1..]);
      if Less(a, b) {
        if a[0] < b[0] {
          assert FirstDifferenceAt(a, b, 0);
        } else {
          var k :| FirstDifferenceAt(a[1..], b[1..], k);
          assert a[..k + 1] == [a[0]] + a[1..][..k];
          assert b[..k + 1] == [b[0]] + b[1..][..k];
          assert FirstDifferenceAt(a, b, k + 1);
        }
      }
      if exists k :: FirstDifferenceAt(a, b, k) {
        var k :| FirstDifferenceAt(a, b, k);
        if k > 0 {
          assert a[0] == a[..k][0] == b[..k][0] == b[0];
          assert a[1..][..k - 1] == a[1..k] == a[..k][1..];
          assert b[1..][..k - 1] == b[1..k] == b[..k][1..];
          assert FirstDifferenceAt(a[1..], b[1..], k - 1);
        }
      }
    }
  }

  lemma {:induction false} LessIrreflexive(a: Timestamp)
    ensures !Less(a, a)
    decreases |a|
  {
    if |a| > 0 {
      LessIrreflexive(a[1..]);
    }
  }

  lemma {:induction false} LessTransitive(a: Timestamp, b: Timestamp, c: Timestamp)
    requires Less(a, b) && Less(b, c)
    ensures Less(a, c)
    decreases |a|
  {
    if |a| > 0 && a[0] == b[0] && b[0] == c[0] {
      LessTransitive(a[1..], b[1..], c[1..]);
    }
  }

  /** Any two timestamps are ordered one way or the other, or are equal. */
  lemma {:induction false} LessTrichotomy(a: Timestamp, b: Timestamp)
    ensures Less(a, b) || a == b || Less(b, a)
    decreases |a|
  {
    if |a| > 0 && |b| > 0 && a[0] == b[0] {
      LessTrichotomy(a[1..], b[1..]);
      if a[1..] == b[1..] {
        assert a == [a[0]] + a[1..] && b == [b[0]] + b[1..];
      }
    }
  }

  /** Tuple `<` is asymmetric. */
  lemma NotLessBothWays(a: Timestamp, b: Timestamp)
    requires Less(a, b)
    ensures !Less(b, a)
  {
    if Less(b, a) {
      LessTransitive(a, b, a);
      LessIrreflexive(a);
    }
  }

  lemma LessEqThenLess(a: Timestamp, b: Timestamp, c: Timestamp)
    requires LessEq(a, b) && Less(b, c)
    ensures Less(a, c)
  {
    if a != b {
      LessTransitive(a, b, c);
    }
  }
}

=== FILE: values.dfy ===
/**
  JSON-like documents (what a parsed feed entry holds) and the dotted-path
  projection `get_nested_value` of the RSS source plugin.
 */
module Values {

  /** A dynamically typed value: Python's None, str, int, list or dict. */
  datatype Value =
    | Null
    | Str(s: string)
    | Int(i: int)
    | List(items: seq<Value>)
    | Map(fields: map<string, Value>)

  /** Python's `d.get(key)`: the value under `key`, or None when the key is absent. */
  function Get(fields: map<string, Value>, key: string): Value {
    if key in fields then fields[key] else Null
  }

  /**
    The projection: look `keys` up one after the other in nested dicts. As
    soon as the current value is None or is not a dict while keys remain, the
    answer is None. Total: it never fails.
   */
  function GetNested(v: Value, keys: seq<string>): Value
    decreases |keys|
  {
    if |keys| == 0 then v
    else
      match v
      case Map(fields) => GetNested(Get(fields, keys[0]), keys[1..])
      case _ => Null
  }

  /** Reference definition: every key of `keys` is present in a dict along the way, ending at `leaf`. */
  ghost predicate PathTo(v: Value, keys: seq<string>, leaf: Value)
    decreases |keys|
  {
    if |keys| == 0 then leaf == v
    else v.Map? && keys[0] in v.fields && PathTo(v.fields[keys[0]], keys[1..], leaf)
  }

  /** When every key is present, the projection is the leaf, whatever its type. */
  lemma {:induction false} PresentPathGivesLeaf(v: Value, keys: seq<string>, leaf: Value)
    requires PathTo(v, keys, leaf)
    ensures GetNested(v, keys) == leaf
    decreases |keys|
  {
    if |keys| > 0 {
      PresentPathGivesLeaf(v.fields[keys[0]], keys[1..], leaf);
    }
  }

  /** Conversely, a projection that is not None was reached through present keys only. */
  lemma {:induction false} FoundValueHasPath(v: Value, keys: seq<string>)
    requires GetNested(v, keys) != Null
    ensures PathTo(v, keys, GetNested(v, keys))
    decreases |keys|
  {
    if |keys| > 0 {
      FoundValueHasPath(Get(v.fields, keys[0]), keys[1..]);
    }
  }

  /** A key missing from the dict reached so far makes the whole projection None. */
  lemma {:induction false} MissingKeyGivesNull(v: Value, keys: seq<string>, i: nat, fields: map<string, Value>)
    requires i < |keys|
    requires PathTo(v, keys[..i], Map(fields))
    requires keys[i] !in fields
    ensures GetNested(v, keys) == Null
    decreases i
  {
    if i > 0 {
      assert keys[..i][1..] == keys[1..][..i - 1];
      MissingKeyGivesNull(v.fields[keys[0]], keys[1..], i - 1, fields);
    } else {
      assert GetNested(Null, keys[1..]) == Null by { NullStaysNull(keys[1..]); }
    }
  }

  /** A None or non-dict value reached while keys remain makes the projection None. */
  lemma {:induction false} NonDictGivesNull(v: Value, keys: seq<string>, i: nat, x: Value)
    requires i < |keys|
    requires PathTo(v, keys[..i], x)
    requires !x.Map?
    ensures GetNested(v, keys) == Null
    decreases i
  {
    if i > 0 {
      assert keys[..i][1..] == keys[1..][..i - 1];
      NonDictGivesNull(v.fields[keys[0]], keys[1..], i - 1, x);
    }
  }

  lemma NullStaysNull(keys: seq<string>)
    ensures GetNested(Null, keys) == Null
  {
  }

  /** Projecting along `a + b` is projecting along `a`, then along `b`. */
  lemma {:induction false} GetNestedAppend(v: Value, a: seq<string>, b: seq<string>)
    ensures GetNested(v, a + b) == GetNested(GetNested(v, a), b)
    decreases |a|
  {
    if |a| == 0 {
      assert a + b == b;
    } else {
      assert (a + b)[0] == a[0] && (a + b)[1..] == a[1..] + b;
      if v.Map? {
        GetNestedAppend(Get(v.fields, a[0]), a[1..], b);
      } else {
        NullStaysNull(b);
      }
    }
  }

  /** The projection as the source writes it: a loop over the keys that may return early. */
  method GetNestedValue(dictionary: Value, keys: seq<string>) returns (r: Value)
    ensures r == GetNested(dictionary, keys)
  {
    var current := dictionary;
    var i := 0;
    while i < |keys|
      invariant 0 <= i <= |keys|
      invariant GetNested(current, keys[i..]) == GetNested(dictionary, keys)
    {
      if !current.Map? {
        return Null;
      }
      assert keys[i..][1..] == keys[i + 1..];
      current := Get(current.fields, keys[i]);
      i := i + 1;
    }
    return current;
  }
}

=== FILE: wrappers.dfy ===
/** Optional values: Python's "value or None" made explicit. */
module Wrappers {

  datatype Option<+T> = None | Some(value: T) {

    /** The wrapped value, or `default` when there is none (Python's `d.get(k, default)`). */
    function GetOr(default: T): T {
      match this
      case Some(v) => v
      case None => default
    }
  }
}
